=== FILE: README.md ===
# Lite Read overlay engine, modelled in Dafny

The engine in `content.js` adjusts the text of a web page on request. It
changes font size, line height and letter spacing relative to each element's
original computed values, and it can run a reversible CJK/Latin spacing pass
through the pangu segmenter. Both adjustments are meant to be undoable.

The model has a finite document of elements and text nodes, keyed by stable
ids. Each element has a tag, its computed font-size, line-height and
letter-spacing (given inputs), its inline `style` attribute and its direct
child text nodes. Each text node has its parent's tag and its value. CSS
values are classified as `Normal | Px(r) | Unitless(n) | Other | Missing`,
and numbers are `real`. The segmenter is an opaque `string -> string`, passed
as `Option` so that "library not loaded" is a case.

The engine state is one immutable record. It holds the document, the element
snapshot store, the text snapshot store, the two applied flags, the last
requested deltas and the root's `data-lite-read-pangu` marker. Each entry
point is a pure step function:

- `Styles.Apply` is `applyRelativeStyles`. It picks the selected elements,
  captures a snapshot once per element, computes the values and writes them
  inline.
- `Styles.Reset` is `resetStyles`.
- `Spacing.PanguApply` and `Spacing.PanguRevert` are `applyPangu` and
  `revertPangu`.
- `Dispatcher.Update` is `liteReadUpdateStyles`.
- `Dispatcher.ReadStatus` and `Dispatcher.Handle` are the `getStyles` and
  `updateStyles` replies.
- `Dispatcher.Reconcile` is the observer's "re-apply unless default" guard.
- `Observer` adds the debounce timer as an explicit "re-application pending"
  bit.
- `Walks` runs each pass node by node, as the source's loops do (here in
  any order), and proves the result equals the whole-document function.

Modules: `Css` (values, inline attribute, the two readers, `trim`
whitespace), `Dom` (document, tag lists, selection), `EngineState`, `Styles`,
`StyleLaws`, `Spacing`, `SpacingLaws`, `Dispatcher`, `DispatcherLaws`,
`SessionLaws` (whole sessions of update requests), `Walks`, `Observer`.

Behaviours of the code that a reader might not expect, all modelled as
written:

- Reset never deletes snapshot entries (content.js:212-240). So a later
  session reads the first session's snapshot.
- The default test looks only at the three deltas (content.js:282-284); a
  request with zero deltas and spacing on still resets the styles.
- Text records are never refreshed, even after a revert; the code keeps them
  on purpose (content.js:101-102).
- An update does not clear a pending observer timer (see Findings).
- Reset removes the five engine properties rather than restoring the saved
  inline style. Exact reversal therefore holds only when the original inline
  style set none of them and was not an empty `style=""` attribute.
  `StyleLaws.ResetUndoesApply` states these conditions, and
  `StyleLaws.ResetDropsAuthorDeclaration` shows why they are needed.

## Model

| member | source | states |
|---|---|---|
| Styles.CaptureSelected | content.js:149-160 | a snapshot is stored only for a selected element that has none; stored snapshots are never replaced |
| Styles.ComputeTargets | content.js:111-186 | font size is the original px (0 when missing or unparsable) plus the delta; line height is the base (1.2x font for `normal` and unparsable values, px value, or multiplier x font) plus the delta, falling back to the new font size when not positive; letter spacing is 0 for `normal` else the px value, plus the delta; a positive font size always comes with a positive line height |
| Styles.Restyle | content.js:188-203 | font-size and line-height are written `!important` only when positive, letter-spacing always; every other inline property is kept |
| Styles.Apply | content.js:127-209 | unselected elements are untouched; selected ones are written from the stored snapshot, or from a fresh one when there is none; text, text records and the spacing flag are unchanged; the styles-applied flag is set |
| Styles.Unstyle | content.js:219-236 | exactly font-size, line-height, letter-spacing, height and min-height are removed; the attribute is dropped exactly when it ends up empty and the saved inline style was empty or absent |
| Styles.Reset | content.js:212-240 | a no-op when no styles are applied; otherwise unstyles every candidate-tag element with a snapshot, keeps the snapshots and clears the flag |
| StyleLaws.SelectionStable | content.js:133-147 | the selection (tag list, and for `div` a non-blank direct child text) is the same before and after a style pass |
| StyleLaws.RestyleTwice | content.js:189-203 | writing the same values twice equals writing them once |
| StyleLaws.RestyleOverwrites | content.js:189-203 | a write of all three properties hides any earlier write |
| StyleLaws.SecondApplyReadsOriginal | content.js:150-172 | a second application with different deltas computes from the snapshot taken before the first one |
| StyleLaws.ApplyIdempotent | content.js:150-203 | applying the same deltas twice gives the same engine as applying them once |
| StyleLaws.ApplyNoCompounding | content.js:150-203 | applying d1 then d2 equals applying d2 alone, whenever d2 writes a positive font size on every selected element |
| StyleLaws.UnstyleClean | content.js:219-236 | unstyling an element whose inline style holds no engine property and is not empty leaves it unchanged |
| StyleLaws.UnstyleRestyle | content.js:224-235 | unstyling undoes restyling when the snapshot saved the clean original inline style |
| StyleLaws.ResetUndoesApply | content.js:127-240 | reset after apply restores every element exactly, given clean originals on the elements the engine may touch (candidate tags that are selected or already have a snapshot) and snapshots that saved the current inline styles, and leaves the snapshots matching the document |
| StyleLaws.ResetDropsAuthorDeclaration | content.js:203-226 | an author's inline declaration of an engine property does not survive apply then reset |
| StyleLaws.WorkedExamples | content.js:117-124 | 16px with +2 gives 18px; `normal` at 16px with +10 gives 29.2px; letter spacing `normal` with +0.5 gives 0.5px |
| Spacing.PanguApply | content.js:40-85 | no-op without the segmenter; otherwise exactly the eligible nodes (parent not script/style/textarea/pre/code, text not blank) whose text the segmenter changes get the new text; their original is recorded only when no record exists; the flag is set |
| Spacing.PanguRevert | content.js:88-108 | every recorded node gets its recorded text, unrecorded nodes are untouched, records are kept, the flag is cleared |
| SpacingLaws.ApplyRecordsOriginals | content.js:75-79 | when records are current, every record after apply holds the node's text from before apply |
| SpacingLaws.RevertAfterApply | content.js:40-108 | revert after apply restores the text of every node, changed or not, when records are current |
| SpacingLaws.StaleRecordWins | content.js:77-100 | a node whose text changed after it was recorded is set back to the old record by apply then revert |
| SpacingLaws.RevertIdempotent | content.js:96-104 | reverting twice equals reverting once |
| Dispatcher.SpacingStep | content.js:286-294 | a present spacing field sets the marker to its string form; strict `true` with the flag off runs the spacing pass, strict `false` with the flag on runs the revert; otherwise text and records are untouched |
| Dispatcher.Update | content.js:271-305 | the deltas are replaced; the spacing field runs the spacing pass, its revert, or neither, and sets the marker; non-default deltas write every selected element from its snapshot (captured once, and only for selected elements) and leave the rest alone; default deltas remove the five engine properties from every candidate element with a snapshot when styles were applied, and change no element otherwise; styles end applied exactly when the deltas are not the default |
| Dispatcher.ReadStatus | content.js:316-326 | the reply carries the current deltas, the version 9, and spacing on exactly when the marker is the string "true" |
| Dispatcher.Handle | content.js:308-327 | an update is dispatched and acknowledged with "success" and the version; a status request leaves the engine unchanged; other actions get no reply |
| Dispatcher.Reconcile | content.js:244-260 | under default deltas a mutation changes nothing; otherwise every selected element, new ones included, is written from its snapshot with the current deltas, stored snapshots are kept, only selected elements gain one, and other elements are untouched; text, text records, the spacing flag and the marker never change |
| DispatcherLaws.FreshStatus | content.js:26-32 | a fresh engine with no marker reports zero deltas, spacing off and version 9 |
| DispatcherLaws.StatusAfterUpdate | content.js:271-326 | the status after an update carries that update's deltas and its spacing field's "true"-ness (or the old marker's when absent) |
| DispatcherLaws.UpdateKeepsSpacingInvariant | content.js:286-294 | every update keeps "spacing off implies all text records are current" |
| DispatcherLaws.SpacingToggleRestoresText | content.js:286-294 | spacing on then spacing off gives every text node its text back, whatever the deltas |
| SessionLaws.UpdateKeepsUndoable | content.js:271-305 | every update request, whatever its deltas and spacing field, keeps each element equal to its original up to the five engine properties (changed only while styles are applied, with a snapshot that saved the clean original), keeps every text record equal to the original text, and keeps every node original while spacing is off |
| SessionLaws.SessionKeepsUndoable | content.js:271-305 | the same holds after any sequence of update requests |
| SessionLaws.SessionRestoresPage | content.js:212-305 | after any sequence of update requests, a default request gives every element its inline style back, and with spacing `false`, as the popup's reset sends it, the whole document comes back; given clean originals on the elements the engine may touch, snapshots that saved the current inline styles and current text records |
| DispatcherLaws.ReconcileSettled | content.js:244-260 | the observer's re-application right after an update changes nothing |
| DispatcherLaws.ReconcileStylesNewContent | content.js:244-260 | a newly inserted selected element gets a fresh snapshot and the values computed from it with the current deltas |
| Walks.ApplyEach | content.js:133-208 | the element-by-element pass, in any order, equals `Styles.Apply` |
| Walks.PanguApplyEach | content.js:48-84 | collecting eligible nodes and then rewriting them one by one, in any order, equals `Spacing.PanguApply` |
| Walks.ResetEach | content.js:216-239 | the element-by-element reset, in any order, equals `Styles.Reset` |
| Walks.PanguRevertEach | content.js:89-107 | the node-by-node revert, in any order, equals `Spacing.PanguRevert` |
| Observer.Start | content.js:16-32 | a fresh session has no pending timer, zero deltas and is healthy |
| Observer.OnMutation | content.js:244-260 | a mutation only replaces the document, leaving every store, flag, the marker and the deltas as they were; it schedules a re-application exactly when the deltas are not the default, and keeps a session healthy |
| Observer.OnTimer | content.js:253-259 | a pending timer runs the whole relative style pass with the deltas current when it fires, without testing them against the default, and clears the pending bit |
| Observer.OnUpdateAsWritten | content.js:271-305 | an update as written runs the full update request and leaves a pending timer in place |
| Observer.StaleTimerReappliesAfterDefault | content.js:250-259 | a mutation under non-default deltas, a default request and the timer firing leave styles applied under default deltas, with every selected element's snapshot font size (the original one where a snapshot existed) pinned inline as `!important` |
| Observer.OnUpdate | content.js:271-305 | the corrected update runs the same full update request, also clears the pending timer, and always yields a healthy session |
| Observer.RunStaysHealthy | content.js:244-305 | with the corrected update, every event sequence from a healthy session stays healthy |

## Left out

- popup.js: the settings panel, storage of presets and version-based
  re-injection belong to the caller.
- Injection guard and hot-update version check (content.js:2-7): global
  plumbing. Only the reported version 9 is modelled.
- MutationObserver wiring and the 100 ms delay: only the guard and a
  "re-application pending" bit are modelled. Which mutations the observer
  sees (child lists, not attributes) is not modelled.
- `chrome.runtime.onMessage`: only the request-to-dispatcher and
  state-to-reply mapping (`Dispatcher.Handle`) is modelled.
- `getComputedStyle`, the cascade, inheritance and `!important` precedence:
  computed values are fixed inputs of each element, so the model does not
  capture this consequence: `querySelectorAll` (content.js:134) lists an
  ancestor before its descendants. So a candidate nested in another (an `a`
  or `span` inside a `p`) is first snapshotted after its ancestor's
  `!important` write. It records the inherited, already adjusted values,
  and its own write carries the deltas twice. Content inserted later under a
  styled ancestor is compounded the same way. The model's snapshots and the
  laws about them (`StyleLaws.ApplyNoCompounding`,
  `DispatcherLaws.ReconcileStylesNewContent`) hold for the given computed
  values only.
- The pangu segmenter: an uninterpreted function.
- The console warning `applyPangu` issues when the segmenter is absent
  (content.js:42): logging only; the model keeps the no-op.
- `parseFloat`/`parseInt` string semantics, NaN and IEEE arithmetic: values
  are pre-classified and numbers are `real`. The `isNaN` half of the
  line-height fallback (content.js:178) can never fire here. Request numbers
  arrive already coerced, so malformed request numbers are not modelled.
- Printing numbers as `${x}px`: the written value is `Px(x)`.
- Attribute text versus declarations: an empty `style` text is a present
  attribute with no declarations. Invalid declarations are not modelled.
- Shorthand properties: inline declarations are independent keys, so a
  `font:` shorthand is not expanded into the font-size and line-height it
  sets. `StyleLaws.Clean` therefore counts such an inline style as clean,
  although in the browser reset would remove the parts the shorthand set.
- WeakMap garbage collection, and the stored but unused `display` field
  (content.js:156).
- The text walk's restriction to `document.body`: every modelled text node is
  under the body.
- StyleLaws.ResetUndoesApply: exact restoration is proved only when the
  original inline styles of the elements the engine may touch set none of
  the five engine properties and are not `style=""`, with snapshots that
  saved the current inline style. SessionLaws.SessionRestoresPage has the
  same conditions. The code
  loses such declarations (`StyleLaws.ResetDropsAuthorDeclaration`), so the
  unconditional promise does not hold.
- StyleLaws.ApplyNoCompounding: equality with a single application is proved
  only when the second deltas give every selected element a positive font
  size. Otherwise the code leaves the first application's font-size and
  line-height in place. `StyleLaws.SecondApplyReadsOriginal` states the
  unconditional part.
- SpacingLaws.RevertAfterApply: proved only when every existing text record
  equals its node's current text. Records are never refreshed, so a node
  whose text the page changed after it was recorded is reverted to the old
  record (`SpacingLaws.StaleRecordWins`).

## Findings

| source | as written | input that shows it | evidently intended | confidence | as-written member | corrected member |
|---|---|---|---|---|---|---|
| content.js:250-259 | the debounced re-application applies whatever deltas are current when the timer fires, and an update request does not clear a pending timer | a structural mutation while the deltas are non-default, then a default request within 100 ms: the reset runs, then the timer applies zero deltas, pinning each selected element's original values as `!important` inline overrides with the styles-applied flag set | an update clears the pending re-application, so no re-application runs under default deltas | medium, not executed | Observer.StaleTimerReappliesAfterDefault | Observer.OnUpdate |

=== FILE: css.dfy ===
/** CSS values, inline style attributes and the two numeric readers the
    overlay engine applies to computed style values.

    Strings produced by the browser are not parsed here: every value is
    already classified the way the engine's readers see it. */
module Css {

  /** A CSS value as the engine's parsers classify it. */
  datatype CssValue =
    | Normal              // the keyword `normal`
    | Px(px: real)        // a number followed by the `px` unit
    | Unitless(n: real)   // text that starts with a number and does not end in `px`
    | Other               // text that does not start with a number
    | Missing             // an absent or empty value

  /** One inline declaration: a value and whether it carries `!important`. */
  datatype Decl = Decl(value: CssValue, important: bool)

  /** The `style` attribute of an element: absent, or present with its
      declarations. An attribute whose text is empty is `Style(map[])`. */
  datatype StyleAttr = NoStyle | Style(decls: map<string, Decl>)

  function Decls(a: StyleAttr): map<string, Decl>
  {
    match a
    case NoStyle => map[]
    case Style(m) => m
  }

  /** `style.setProperty(p, v, priority)`: writes one declaration, creating the
      attribute when it is absent. */
  function SetProperty(a: StyleAttr, p: string, d: Decl): StyleAttr
  {
    Style(Decls(a)[p := d])
  }

  /** `style.removeProperty(p)`: drops one declaration; an absent attribute
      stays absent. */
  function RemoveProperty(a: StyleAttr, p: string): StyleAttr
  {
    match a
    case NoStyle => NoStyle
    case Style(m) => Style(m - {p})
  }

  /** True when the attribute text is empty or absent, i.e. falsy in the
      engine's test of the saved inline style. */
  predicate IsEmptyOrAbsent(a: StyleAttr)
  {
    a == NoStyle || a == Style(map[])
  }

  /** The pixel reader: the leading number of the value with any `px` unit
      dropped, and 0 for an absent value or one without a number. */
  function ParsePx(v: CssValue): real
  {
    match v
    case Px(x) => x
    case Unitless(n) => n
    case _ => 0.0
  }

  /** The line-height reader: `normal` is 1.2 times the font size, a pixel
      length is itself, a unitless number multiplies the font size and
      anything else falls back to 1.2 times the font size. */
  function LineHeightBase(v: CssValue, fontSize: real): real
  {
    match v
    case Normal => fontSize * 1.2
    case Px(x) => x
    case Unitless(n) => fontSize * n
    case _ => fontSize * 1.2
  }

  /** The characters removed by ECMAScript `String.prototype.trim`:
      WhiteSpace and LineTerminator code points. */
  predicate IsTrimmed(c: char)
  {
    || c == ' ' || c == '\t' || c == '\n' || c == '\r'
    || c == '\U{000B}' || c == '\U{000C}' || c == '\U{00A0}' || c == '\U{1680}'
    || ('\U{2000}' <= c <= '\U{200A}')
    || c == '\U{2028}' || c == '\U{2029}' || c == '\U{202F}' || c == '\U{205F}'
    || c == '\U{3000}' || c == '\U{FEFF}'
  }

  /** True when `s.trim()` is the empty string. */
  predicate IsBlank(s: string)
  {
    forall i :: 0 <= i < |s| ==> IsTrimmed(s[i])
  }
}

=== FILE: dispatcher.dfy ===
/** The request dispatcher: an update request replaces the requested deltas,
    records and acts on the spacing flag, and then resets or applies styles;
    a status request reads the state back. The mutation observer's guard
    re-applies the current deltas only when they are not the default. */
module Dispatcher {
  import opened Css
  import opened Dom
  import opened EngineState
  import opened Styles
  import opened Spacing

  /** The version the engine reports in every response. */
  const Version: int := 9

  /** The request's spacing field: absent, a boolean, or any other value
      together with its string form. */
  datatype PanguArg = Absent | Flag(on: bool) | OtherValue(text: string)

  /** An update request, with its numbers already coerced. */
  datatype Request = Request(fontSize: int, lineHeight: real, letterSpacing: real, pangu: PanguArg)

  datatype StylesResponse = StylesResponse(fontSize: int, lineHeight: real, letterSpacing: real,
                                           pangu: bool, version: int)

  datatype Message = UpdateStyles(req: Request) | GetStyles | OtherAction

  datatype Response = Ack(status: string, version: int) | Status(styles: StylesResponse) | NoResponse

  function Abs(x: real): real
  {
    if x < 0.0 then -x else x
  }

  /** The default test: no font-size delta and both pixel deltas within 0.01
      of zero. The spacing flag plays no part. */
  predicate IsDefault(d: Deltas)
  {
    d.fontSize == 0 && Abs(d.lineHeight) < 0.01 && Abs(d.letterSpacing) < 0.01
  }

  /** The string form of a present spacing field. */
  function MarkerText(p: PanguArg): string
    requires !p.Absent?
  {
    match p
    case Flag(b) => if b then "true" else "false"
    case OtherValue(s) => s
  }

  /** The spacing part of an update: when the field is present the marker is
      set to it, and apply or revert runs only for a strict boolean that
      differs from the applied flag. */
  function SpacingStep(e: Engine, p: PanguArg, lib: Option<string -> string>): (r: Engine)
    ensures p.Absent? ==> r == e
    ensures !p.Absent? ==> r.marker == Some(MarkerText(p))
    ensures r.panguApplied ==
              if p == Flag(true) && lib.Some? then true
              else if p == Flag(false) then false
              else e.panguApplied
    ensures p == Flag(true) && !e.panguApplied ==> r == PanguApply(e.(marker := Some("true")), lib)
    ensures p == Flag(false) && e.panguApplied ==> r == PanguRevert(e.(marker := Some("false")))
    ensures !(p == Flag(true) && !e.panguApplied) && !(p == Flag(false) && e.panguApplied) ==>
              r.doc == e.doc && r.textSnaps == e.textSnaps
    ensures r.doc.elements == e.doc.elements && r.doc.texts.Keys == e.doc.texts.Keys
    ensures r.styleSnaps == e.styleSnaps && r.stylesApplied == e.stylesApplied && r.state == e.state
  {
    match p
    case Absent => e
    case _ =>
      var m := e.(marker := Some(MarkerText(p)));
      if p == Flag(true) && !m.panguApplied then PanguApply(m, lib)
      else if p == Flag(false) && m.panguApplied then PanguRevert(m)
      else m
  }

  /** The update request. */
  function Update(e: Engine, req: Request, lib: Option<string -> string>): (r: Engine)
    ensures r.state == Deltas(req.fontSize, req.lineHeight, req.letterSpacing)
    ensures r.stylesApplied <==> !IsDefault(r.state)
    ensures !req.pangu.Absent? ==> r.marker == Some(MarkerText(req.pangu))
    ensures req.pangu.Absent? ==>
              r.marker == e.marker && r.panguApplied == e.panguApplied &&
              r.doc.texts == e.doc.texts && r.textSnaps == e.textSnaps
    ensures r.panguApplied ==
              if req.pangu == Flag(true) && lib.Some? then true
              else if req.pangu == Flag(false) then false
              else e.panguApplied
    ensures r.doc.elements.Keys == e.doc.elements.Keys && r.doc.texts.Keys == e.doc.texts.Keys
    // stored snapshots are never replaced; a default request adds none
    ensures forall id :: id in e.styleSnaps ==> id in r.styleSnaps && r.styleSnaps[id] == e.styleSnaps[id]
    ensures IsDefault(r.state) ==> r.styleSnaps == e.styleSnaps
    // the spacing field runs the spacing pass or its revert, or leaves the text alone
    ensures req.pangu == Flag(true) && !e.panguApplied ==>
              r.doc.texts == PanguApply(e, lib).doc.texts && r.textSnaps == PanguApply(e, lib).textSnaps
    ensures req.pangu == Flag(false) && e.panguApplied ==>
              r.doc.texts == PanguRevert(e).doc.texts && r.textSnaps == e.textSnaps
    ensures !(req.pangu == Flag(true) && !e.panguApplied) && !(req.pangu == Flag(false) && e.panguApplied) ==>
              r.doc.texts == e.doc.texts && r.textSnaps == e.textSnaps
    // non-default deltas: every selected element is written from its snapshot
    ensures !IsDefault(r.state) ==> StyledFrom(e.doc.elements, e.styleSnaps, r, r.state)
    // default deltas: the engine's properties are removed where styles were applied
    ensures IsDefault(r.state) ==> forall id :: id in e.doc.elements ==>
              r.doc.elements[id] ==
                if e.stylesApplied && e.doc.elements[id].tag in CandidateTags && id in e.styleSnaps
                then Unstyle(e.doc.elements[id], e.styleSnaps[id])
                else e.doc.elements[id]
    ensures IsDefault(r.state) && e.stylesApplied ==> forall id :: id in e.doc.elements ==>
              (e.doc.elements[id].tag in CandidateTags && id in e.styleSnaps ==>
                 Decls(r.doc.elements[id].style).Keys !! EngineProps)
  {
    var d := Deltas(req.fontSize, req.lineHeight, req.letterSpacing);
    var s := SpacingStep(e.(state := d), req.pangu, lib);
    if IsDefault(d) then Reset(s) else Apply(s, d)
  }

  /** The status read-back: the current deltas and whether the root marker
      is the string "true". */
  function ReadStatus(e: Engine): (r: StylesResponse)
    ensures r.fontSize == e.state.fontSize && r.lineHeight == e.state.lineHeight
    ensures r.letterSpacing == e.state.letterSpacing && r.version == Version
    ensures r.pangu <==> e.marker == Some("true")
  {
    StylesResponse(e.state.fontSize, e.state.lineHeight, e.state.letterSpacing,
                   e.marker.Some? && e.marker.value == "true", Version)
  }

  /** The message listener: update requests are acknowledged with the
      version, status requests leave the engine unchanged, other actions get
      no reply. */
  function Handle(e: Engine, msg: Message, lib: Option<string -> string>): (r: (Engine, Response))
    ensures msg.UpdateStyles? ==> r == (Update(e, msg.req, lib), Ack("success", Version))
    ensures !msg.UpdateStyles? ==> r.0 == e
    ensures msg.GetStyles? ==> r.1 == Status(ReadStatus(e))
    ensures msg.OtherAction? ==> r.1 == NoResponse
  {
    match msg
    case UpdateStyles(req) => (Update(e, req, lib), Ack("success", Version))
    case GetStyles => (e, Status(ReadStatus(e)))
    case OtherAction => (e, NoResponse)
  }

  /** The observer's guard: a structural mutation schedules re-application
      exactly when the current deltas are not the default. */
  function Reconcile(e: Engine): (r: Engine)
    ensures IsDefault(e.state) ==> r == e
    ensures !IsDefault(e.state) ==> r.stylesApplied && r.doc.texts == e.doc.texts && r.state == e.state
    ensures !IsDefault(e.state) ==> StyledFrom(e.doc.elements, e.styleSnaps, r, e.state)
    ensures r.textSnaps == e.textSnaps && r.panguApplied == e.panguApplied && r.marker == e.marker
  {
    if IsDefault(e.state) then e else Apply(e, e.state)
  }
}

=== FILE: dispatcher_laws.dfy ===
/** Laws of the dispatcher: the status read-back returns what the last
    update requested, spacing toggled on then off gives the text back,
    and the observer's re-application styles new content like old content
    and is a no-op when nothing new arrived. */
module DispatcherLaws {
  import opened Css
  import opened Dom
  import opened EngineState
  import opened Styles
  import opened StyleLaws
  import opened Spacing
  import opened SpacingLaws
  import opened Dispatcher

  /** A freshly attached engine whose root carries no marker reports the
      identity state and the version. */
  lemma FreshStatus(doc: Doc)
    ensures ReadStatus(Attach(doc, None)) == StylesResponse(0, 0.0, 0.0, false, Version)
  {
  }

  /** Round trip: the status after an update carries the update's deltas and
      reports spacing on exactly when the marker now reads "true". */
  lemma StatusAfterUpdate(e: Engine, req: Request, lib: Option<string -> string>)
    ensures ReadStatus(Update(e, req, lib)) ==
              StylesResponse(req.fontSize, req.lineHeight, req.letterSpacing,
                             if req.pangu.Absent? then e.marker == Some("true") else MarkerText(req.pangu) == "true",
                             Version)
  {
  }

  /** While spacing is not applied, every text record is current. */
  predicate SpacingInvariant(e: Engine)
  {
    !e.panguApplied ==> TextSnapsCurrent(e)
  }

  /** Every update keeps the spacing invariant. */
  lemma UpdateKeepsSpacingInvariant(e: Engine, req: Request, lib: Option<string -> string>)
    requires SpacingInvariant(e)
    ensures SpacingInvariant(Update(e, req, lib))
  {
  }

  /** Spacing on then spacing off gives every text node its text back,
      whatever the deltas of the two requests. */
  lemma SpacingToggleRestoresText(e: Engine, on: Request, off: Request,
                                  spacing: string -> string, lib: Option<string -> string>)
    requires !e.panguApplied && TextSnapsCurrent(e)
    requires on.pangu == Flag(true) && off.pangu == Flag(false)
    ensures Update(Update(e, on, Some(spacing)), off, lib).doc.texts == e.doc.texts
  {
    var a := PanguApply(e, Some(spacing));
    var u1 := Update(e, on, Some(spacing));
    assert u1.doc.texts == a.doc.texts && u1.textSnaps == a.textSnaps && u1.panguApplied;
    RevertAfterApply(e, spacing);
    assert PanguRevert(u1).doc.texts == PanguRevert(a).doc.texts;
  }

  /** The observer's re-application after an update, with no new content,
      changes nothing. */
  lemma ReconcileSettled(e: Engine, req: Request, lib: Option<string -> string>)
    ensures Reconcile(Update(e, req, lib)) == Update(e, req, lib)
  {
    var d := Deltas(req.fontSize, req.lineHeight, req.letterSpacing);
    var s := SpacingStep(e.(state := d), req.pangu, lib);
    if !IsDefault(d) {
      ApplyIdempotent(s, d);
    }
  }

  /** Newly inserted content: once the document has changed under a
      non-default state, the re-application writes on every new selected
      element the values computed from its own fresh snapshot. The computed
      values are given inputs here; in the browser, content inserted under
      a styled ancestor inherits the adjusted values. */
  lemma ReconcileStylesNewContent(e: Engine, doc: Doc, id: ElemId)
    requires !IsDefault(e.state)
    requires id in doc.elements && id !in e.styleSnaps && Selected(doc, doc.elements[id])
    ensures Reconcile(e.(doc := doc)).doc.elements[id] ==
              Restyle(doc.elements[id], ComputeTargets(Capture(doc.elements[id]), e.state))
    ensures Reconcile(e.(doc := doc)).styleSnaps[id] == Capture(doc.elements[id])
  {
  }
}

=== FILE: dom.dfy ===
/** The abstract document the overlay engine works on: a finite set of
    elements anywhere in the document and a finite set of text nodes under
    the document body, each keyed by a stable id. */
module Dom {
  import opened Css

  type ElemId = nat
  type TextId = nat

  /** The computed style values the engine reads; an input of the model. */
  datatype Computed = Computed(fontSize: CssValue, lineHeight: CssValue, letterSpacing: CssValue)

  /** An element: its lower-case tag name, its computed style, its inline
      `style` attribute and the ids of its direct child text nodes. */
  datatype Element = Element(tag: string, computed: Computed, style: StyleAttr, childText: seq<TextId>)

  /** A text node: the lower-case tag of its parent element and its value. */
  datatype TextNode = TextNode(parentTag: string, value: string)

  datatype Doc = Doc(elements: map<ElemId, Element>, texts: map<TextId, TextNode>)

  /** The tags matched by the engine's element selector. */
  const CandidateTags: set<string> :=
    {"p", "span", "li", "a", "h1", "h2", "h3", "h4", "h5", "h6", "td", "th",
     "blockquote", "pre", "code", "div", "b", "strong", "i", "em", "mark",
     "small", "label", "markerow8"}

  /** Parent tags whose text the spacing pass leaves alone. */
  const SpacingExcludedTags: set<string> := {"script", "style", "textarea", "pre", "code"}

  /** Some direct child text node of `el` has non-whitespace content. */
  predicate HasDirectText(doc: Doc, el: Element)
  {
    exists i :: 0 <= i < |el.childText| && el.childText[i] in doc.texts
                && !IsBlank(doc.texts[el.childText[i]].value)
  }

  /** The element is styled by the applier: its tag is a candidate and, for a
      `div`, it directly holds text. */
  predicate Selected(doc: Doc, el: Element)
  {
    el.tag in CandidateTags && (el.tag == "div" ==> HasDirectText(doc, el))
  }
}

=== FILE: observer.dfy ===
/** The mutation observer with its debounce timer, reduced to events: a
    structural mutation, the timer firing, and an update request. The delay
    itself is not modelled; only whether a re-application is pending.

    As written, an update request leaves a pending re-application in place,
    and the timer re-applies whatever deltas are current when it fires,
    without testing them against the default again. A default request that
    arrives while a re-application is pending is therefore followed by a
    re-application of zero deltas. The corrected update clears the pending
    timer. */
module Observer {
  import opened Css
  import opened Dom
  import opened EngineState
  import opened Styles
  import opened Dispatcher

  datatype Session = Session(engine: Engine, pending: bool)

  /** No re-application is pending under default deltas, and styles are
      applied exactly when the deltas are not the default. */
  predicate Healthy(s: Session)
  {
    && (s.pending ==> !IsDefault(s.engine.state))
    && (s.engine.stylesApplied <==> !IsDefault(s.engine.state))
  }

  /** A freshly attached engine with no timer. */
  function Start(doc: Doc, marker: Option<string>): (s: Session)
    ensures Healthy(s) && !s.pending && s.engine.state == ZeroDeltas
  {
    Session(Attach(doc, marker), false)
  }

  /** A structural mutation: the document changes, and a re-application is
      scheduled (or rescheduled) exactly when the current deltas are not the
      default; a pending one is kept otherwise. */
  function OnMutation(s: Session, doc: Doc): (r: Session)
    ensures r.engine == s.engine.(doc := doc)
    ensures r.pending <==> s.pending || !IsDefault(s.engine.state)
    ensures Healthy(s) ==> Healthy(r)
  {
    Session(s.engine.(doc := doc), s.pending || !IsDefault(s.engine.state))
  }

  /** The timer firing: the deltas current now are re-applied. */
  function OnTimer(s: Session): (r: Session)
    ensures !r.pending
    ensures !s.pending ==> r.engine == s.engine
    ensures s.pending ==> r.engine == Apply(s.engine, s.engine.state)
    ensures s.pending ==> r.engine.stylesApplied && r.engine.state == s.engine.state
    ensures Healthy(s) ==> Healthy(r)
  {
    if s.pending then Session(Apply(s.engine, s.engine.state), false) else s
  }

  /** An update request as the handler is written: the timer is untouched. */
  function OnUpdateAsWritten(s: Session, req: Request, lib: Option<string -> string>): (r: Session)
    ensures r.pending == s.pending
    ensures r.engine == Update(s.engine, req, lib)
    ensures r.engine.state == Deltas(req.fontSize, req.lineHeight, req.letterSpacing)
    ensures r.engine.stylesApplied <==> !IsDefault(r.engine.state)
  {
    Session(Update(s.engine, req, lib), s.pending)
  }

  /** The stale timer: a mutation under non-default deltas, then a default
      request, then the timer firing leaves styles applied although the
      requested state is the default. Every selected element is left with
      its snapshot's font size pinned inline with `!important`, and a
      snapshot taken before the session is the one used. */
  lemma StaleTimerReappliesAfterDefault(s: Session, doc: Doc, req: Request, lib: Option<string -> string>)
    requires !IsDefault(s.engine.state)
    requires IsDefault(Deltas(req.fontSize, req.lineHeight, req.letterSpacing))
    ensures var r := OnTimer(OnUpdateAsWritten(OnMutation(s, doc), req, lib));
            IsDefault(r.engine.state) && r.engine.stylesApplied && !Healthy(r)
    ensures var r := OnTimer(OnUpdateAsWritten(OnMutation(s, doc), req, lib));
            forall id :: id in s.engine.styleSnaps ==>
              id in r.engine.styleSnaps && r.engine.styleSnaps[id] == s.engine.styleSnaps[id]
    ensures var r := OnTimer(OnUpdateAsWritten(OnMutation(s, doc), req, lib));
            forall id :: id in r.engine.doc.elements && Selected(r.engine.doc, r.engine.doc.elements[id]) ==>
              id in r.engine.styleSnaps &&
              (ParsePx(r.engine.styleSnaps[id].fontSize) > 0.0 ==>
                 Written(r.engine.doc.elements[id].style, FontSizeProp, ParsePx(r.engine.styleSnaps[id].fontSize)))
  {
  }

  /** An update request that also clears the pending timer. */
  function OnUpdate(s: Session, req: Request, lib: Option<string -> string>): (r: Session)
    ensures !r.pending
    ensures r.engine == Update(s.engine, req, lib)
    ensures r.engine.state == Deltas(req.fontSize, req.lineHeight, req.letterSpacing)
    ensures Healthy(r)
  {
    Session(Update(s.engine, req, lib), false)
  }

  datatype Event = Mutation(doc: Doc) | TimerFired | UpdateRequest(req: Request)

  /** Runs a sequence of events with the corrected update. */
  function Run(s: Session, events: seq<Event>, lib: Option<string -> string>): (r: Session)
    decreases |events|
  {
    if events == [] then s
    else
      var next := match events[0]
                  case Mutation(doc) => OnMutation(s, doc)
                  case TimerFired => OnTimer(s)
                  case UpdateRequest(req) => OnUpdate(s, req, lib);
      Run(next, events[1..], lib)
  }

  /** With the corrected update every run from a healthy session stays
      healthy: styles are applied exactly when the deltas are not the default. */
  lemma {:induction false} RunStaysHealthy(s: Session, events: seq<Event>, lib: Option<string -> string>)
    requires Healthy(s)
    ensures Healthy(Run(s, events, lib))
    decreases |events|
  {
    if events != [] {
      var next := match events[0]
                  case Mutation(doc) => OnMutation(s, doc)
                  case TimerFired => OnTimer(s)
                  case UpdateRequest(req) => OnUpdate(s, req, lib);
      RunStaysHealthy(next, events[1..], lib);
    }
  }
}

=== FILE: session_laws.dfy ===
/** Laws of a whole session of update requests: whatever requests arrive,
    a final default request gives every element its inline style back, and
    when it also turns spacing off, the whole document comes back. */
module SessionLaws {
  import opened Css
  import opened Dom
  import opened EngineState
  import opened Styles
  import opened StyleLaws
  import opened Spacing
  import opened Dispatcher

  /** The engine after a sequence of update requests, in arrival order. */
  function Session(e: Engine, reqs: seq<Request>, lib: Option<string -> string>): Engine
    decreases |reqs|
  {
    if reqs == [] then e else Session(Update(e, reqs[0], lib), reqs[1..], lib)
  }

  /** Element `c` is the original `o` with at most the engine's properties
      added or changed; the attribute is present whenever it was. */
  predicate Shadows(o: Element, c: Element)
  {
    && c.tag == o.tag && c.computed == o.computed && c.childText == o.childText
    && Decls(c.style) - EngineProps == Decls(o.style) - EngineProps
    && (o.style.Style? ==> c.style.Style?)
  }

  /** The elements of `x` can be reset to those of `e0`: each differs from
      its original only in engine properties, and only while styles are
      applied and a snapshot exists; every snapshot of a candidate-tag
      element saved its clean original inline style. */
  predicate ElementsUndoable(e0: Engine, x: Engine)
  {
    && x.doc.elements.Keys == e0.doc.elements.Keys
    && (forall id :: id in e0.doc.elements ==>
          && Shadows(e0.doc.elements[id], x.doc.elements[id])
          && (x.doc.elements[id] != e0.doc.elements[id] ==>
                x.stylesApplied && e0.doc.elements[id].tag in CandidateTags && id in x.styleSnaps))
    && (forall id :: id in x.styleSnaps && id in e0.doc.elements && e0.doc.elements[id].tag in CandidateTags ==>
          x.styleSnaps[id].originalInline == e0.doc.elements[id].style && Clean(e0.doc.elements[id].style))
  }

  /** The texts of `x` can be reverted to those of `e0`: every record holds
      the original text, and a node is original unless it is recorded, its
      original is non-blank and spacing is applied. */
  predicate TextsUndoable(e0: Engine, x: Engine)
  {
    && x.doc.texts.Keys == e0.doc.texts.Keys
    && (forall t :: t in e0.doc.texts ==> x.doc.texts[t].parentTag == e0.doc.texts[t].parentTag)
    && (forall t :: t in x.textSnaps && t in e0.doc.texts ==> x.textSnaps[t] == e0.doc.texts[t].value)
    && (forall t :: t in e0.doc.texts && (t !in x.textSnaps || IsBlank(e0.doc.texts[t].value) || !x.panguApplied) ==>
          x.doc.texts[t] == e0.doc.texts[t])
  }

  predicate Undoable(e0: Engine, x: Engine)
  {
    TouchedClean(e0) && ElementsUndoable(e0, x) && TextsUndoable(e0, x)
  }

  /** A fresh start: the engine itself is undoable to itself. */
  lemma UndoableStart(e: Engine)
    requires TouchedClean(e) && SnapshotsMatchDoc(e) && TextSnapsCurrent(e)
    ensures Undoable(e, e)
  {
  }

  /** Blank text never changes, so an element selected now was selected
      originally. */
  lemma SelectedOriginally(e0: Engine, x: Engine, id: ElemId)
    requires ElementsUndoable(e0, x) && TextsUndoable(e0, x)
    requires id in x.doc.elements && Selected(x.doc, x.doc.elements[id])
    ensures Selected(e0.doc, e0.doc.elements[id])
  {
    var c := x.doc.elements[id];
    if c.tag == "div" {
      var i :| 0 <= i < |c.childText| && c.childText[i] in x.doc.texts
               && !IsBlank(x.doc.texts[c.childText[i]].value);
      var t := c.childText[i];
      assert !IsBlank(e0.doc.texts[t].value);
    }
  }

  lemma PanguApplyKeepsTexts(e0: Engine, x: Engine, lib: Option<string -> string>)
    requires TextsUndoable(e0, x)
    ensures TextsUndoable(e0, PanguApply(x, lib))
  {
  }

  lemma PanguRevertKeepsTexts(e0: Engine, x: Engine)
    requires TextsUndoable(e0, x)
    ensures TextsUndoable(e0, PanguRevert(x))
    ensures forall t :: t in e0.doc.texts ==> PanguRevert(x).doc.texts[t] == e0.doc.texts[t]
  {
  }

  lemma SpacingStepKeeps(e0: Engine, x: Engine, p: PanguArg, lib: Option<string -> string>)
    requires ElementsUndoable(e0, x) && TextsUndoable(e0, x)
    ensures ElementsUndoable(e0, SpacingStep(x, p, lib)) && TextsUndoable(e0, SpacingStep(x, p, lib))
    ensures p == Flag(false) ==>
              forall t :: t in e0.doc.texts ==> SpacingStep(x, p, lib).doc.texts[t] == e0.doc.texts[t]
  {
    var m := x.(marker := if p.Absent? then x.marker else Some(MarkerText(p)));
    if p == Flag(true) && !x.panguApplied {
      PanguApplyKeepsTexts(e0, m, lib);
    } else if p == Flag(false) && x.panguApplied {
      PanguRevertKeepsTexts(e0, m);
    }
  }

  /** Restyling changes only engine properties. */
  lemma RestyleShadows(c: Element, t: Targets)
    ensures Decls(Restyle(c, t).style) - EngineProps == Decls(c.style) - EngineProps
  {
    var r := Restyle(c, t);
    forall p | p !in EngineProps
      ensures Keeps(r.style, c.style, p)
    {
    }
    assert forall p :: p in Decls(r.style) - EngineProps <==> p in Decls(c.style) - EngineProps;
  }

  /** One element after the style pass still shadows its original. */
  lemma ApplyKeepsElement(e0: Engine, x: Engine, d: Deltas, id: ElemId)
    requires Undoable(e0, x) && id in e0.doc.elements
    ensures Shadows(e0.doc.elements[id], Apply(x, d).doc.elements[id])
    ensures Apply(x, d).doc.elements[id] != e0.doc.elements[id] ==>
              e0.doc.elements[id].tag in CandidateTags && id in Apply(x, d).styleSnaps
    ensures id in Apply(x, d).styleSnaps && e0.doc.elements[id].tag in CandidateTags ==>
              Apply(x, d).styleSnaps[id].originalInline == e0.doc.elements[id].style &&
              Clean(e0.doc.elements[id].style)
  {
    var r := Apply(x, d);
    var o := e0.doc.elements[id];
    var c := x.doc.elements[id];
    assert Shadows(o, c);
    if Selected(x.doc, c) {
      SelectedOriginally(e0, x, id);
      assert Clean(o.style);
      var t := ComputeTargets(r.styleSnaps[id], d);
      assert r.doc.elements[id] == Restyle(c, t);
      RestyleShadows(c, t);
      if id !in x.styleSnaps {
        assert c == o;
        assert r.styleSnaps[id] == Capture(o);
      }
    } else {
      assert r.doc.elements[id] == c;
      assert id in r.styleSnaps ==> id in x.styleSnaps;
    }
  }

  lemma ApplyKeepsElements(e0: Engine, x: Engine, d: Deltas)
    requires Undoable(e0, x)
    ensures ElementsUndoable(e0, Apply(x, d))
  {
    forall id | id in e0.doc.elements {
      ApplyKeepsElement(e0, x, d, id);
    }
  }

  lemma ResetRestoresElements(e0: Engine, x: Engine)
    requires ElementsUndoable(e0, x)
    ensures Reset(x).doc.elements == e0.doc.elements
    ensures ElementsUndoable(e0, Reset(x))
  {
    var r := Reset(x);
    forall id | id in e0.doc.elements
      ensures r.doc.elements[id] == e0.doc.elements[id]
    {
      var o := e0.doc.elements[id];
      var c := x.doc.elements[id];
      if x.stylesApplied && c.tag in CandidateTags && id in x.styleSnaps {
        var u := Unstyle(c, x.styleSnaps[id]);
        assert Decls(u.style) == Decls(o.style);
        assert u.style == o.style;
      }
    }
  }

  /** One update request keeps the session undoable. */
  lemma UpdateKeepsUndoable(e0: Engine, x: Engine, req: Request, lib: Option<string -> string>)
    requires Undoable(e0, x)
    ensures Undoable(e0, Update(x, req, lib))
  {
    var d := Deltas(req.fontSize, req.lineHeight, req.letterSpacing);
    var s := SpacingStep(x.(state := d), req.pangu, lib);
    SpacingStepKeeps(e0, x.(state := d), req.pangu, lib);
    if IsDefault(d) {
      ResetRestoresElements(e0, s);
    } else {
      ApplyKeepsElements(e0, s, d);
    }
  }

  lemma {:induction false} SessionKeepsUndoable(e0: Engine, x: Engine, reqs: seq<Request>,
                                               lib: Option<string -> string>)
    requires Undoable(e0, x)
    ensures Undoable(e0, Session(x, reqs, lib))
    decreases |reqs|
  {
    if reqs != [] {
      UpdateKeepsUndoable(e0, x, reqs[0], lib);
      SessionKeepsUndoable(e0, Update(x, reqs[0], lib), reqs[1..], lib);
    }
  }

  /** Any sequence of update requests followed by a default request gives
      every element its inline style back; when that last request also
      turns spacing off, as the popup's reset does, the whole document comes
      back. This holds when no element the engine may touch had an engine
      property in its inline style, the stored snapshots saved the current
      inline styles and the text records are current. */
  lemma SessionRestoresPage(e: Engine, reqs: seq<Request>, last: Request, lib: Option<string -> string>)
    requires TouchedClean(e) && SnapshotsMatchDoc(e) && TextSnapsCurrent(e)
    requires IsDefault(Deltas(last.fontSize, last.lineHeight, last.letterSpacing))
    ensures Update(Session(e, reqs, lib), last, lib).doc.elements == e.doc.elements
    ensures last.pangu == Flag(false) ==> Update(Session(e, reqs, lib), last, lib).doc == e.doc
  {
    UndoableStart(e);
    SessionKeepsUndoable(e, e, reqs, lib);
    var x := Session(e, reqs, lib);
    var d := Deltas(last.fontSize, last.lineHeight, last.letterSpacing);
    var s := SpacingStep(x.(state := d), last.pangu, lib);
    SpacingStepKeeps(e, x.(state := d), last.pangu, lib);
    ResetRestoresElements(e, s);
    if last.pangu == Flag(false) {
      assert Reset(s).doc.texts == e.doc.texts;
    }
  }
}

=== FILE: spacing.dfy ===
/** The reversible text-spacing pass: apply runs the external segmenter over
    every eligible text node and records the original of each node it
    changes; revert writes the recorded originals back. */
module Spacing {
  import opened Css
  import opened Dom
  import opened EngineState

  /** The walk's filter: the parent is not script, style, textarea, pre or
      code, and the text is not whitespace only. */
  predicate Eligible(n: TextNode)
  {
    n.parentTag !in SpacingExcludedTags && !IsBlank(n.value)
  }

  /** The nodes the segmenter would change. */
  function ChangedIds(doc: Doc, spacing: string -> string): set<TextId>
  {
    set t | t in doc.texts && Eligible(doc.texts[t]) && spacing(doc.texts[t].value) != doc.texts[t].value
  }

  /** Every recorded node that is in the document holds its recorded text. */
  predicate TextSnapsCurrent(e: Engine)
  {
    forall t :: t in e.textSnaps && t in e.doc.texts ==> e.doc.texts[t].value == e.textSnaps[t]
  }

  /** The spacing pass. With the segmenter absent nothing happens; otherwise
      each changed node gets the segmenter's text, its original is recorded
      unless a record exists, and the applied flag is set. */
  function PanguApply(e: Engine, lib: Option<string -> string>): (r: Engine)
    ensures lib.None? ==> r == e
    ensures lib.Some? ==> r.panguApplied
    ensures r.doc.elements == e.doc.elements && r.doc.texts.Keys == e.doc.texts.Keys
    ensures r.styleSnaps == e.styleSnaps && r.stylesApplied == e.stylesApplied
    ensures r.state == e.state && r.marker == e.marker
    // records are only added, for the changed nodes, and never overwritten
    ensures lib.Some? ==> r.textSnaps.Keys == e.textSnaps.Keys + ChangedIds(e.doc, lib.value)
    ensures forall t :: t in e.textSnaps ==> r.textSnaps[t] == e.textSnaps[t]
    ensures forall t :: t in r.textSnaps && t !in e.textSnaps ==>
              t in e.doc.texts && r.textSnaps[t] == e.doc.texts[t].value
    // changed nodes get the segmenter's text; all other nodes are untouched
    ensures lib.Some? ==> forall t :: t in e.doc.texts ==>
              r.doc.texts[t] == if t in ChangedIds(e.doc, lib.value)
                                then e.doc.texts[t].(value := lib.value(e.doc.texts[t].value))
                                else e.doc.texts[t]
  {
    match lib
    case None => e
    case Some(spacing) =>
      var changed := ChangedIds(e.doc, spacing);
      var snaps := map t | t in e.textSnaps.Keys + changed ::
        if t in e.textSnaps then e.textSnaps[t] else e.doc.texts[t].value;
      var texts := map t | t in e.doc.texts ::
        if t in changed then e.doc.texts[t].(value := spacing(e.doc.texts[t].value)) else e.doc.texts[t];
      e.(doc := e.doc.(texts := texts), textSnaps := snaps, panguApplied := true)
  }

  /** The revert pass: every recorded node in the document gets its recorded
      text back, records are kept and the applied flag is cleared. */
  function PanguRevert(e: Engine): (r: Engine)
    ensures !r.panguApplied && TextSnapsCurrent(r)
    ensures r.textSnaps == e.textSnaps
    ensures r.doc.elements == e.doc.elements && r.doc.texts.Keys == e.doc.texts.Keys
    ensures r.styleSnaps == e.styleSnaps && r.stylesApplied == e.stylesApplied
    ensures r.state == e.state && r.marker == e.marker
    ensures forall t :: t in e.doc.texts ==> r.doc.texts[t].parentTag == e.doc.texts[t].parentTag
    ensures forall t :: t in e.doc.texts && t !in e.textSnaps ==> r.doc.texts[t] == e.doc.texts[t]
  {
    var texts := map t | t in e.doc.texts ::
      if t in e.textSnaps then e.doc.texts[t].(value := e.textSnaps[t]) else e.doc.texts[t];
    e.(doc := e.doc.(texts := texts), panguApplied := false)
  }
}

=== FILE: spacing_laws.dfy ===
/** Laws of the spacing pass: revert after apply gives back the document's
    text exactly, provided the recorded originals are current, and the
    records apply keeps are the texts it found. */
module SpacingLaws {
  import opened Dom
  import opened EngineState
  import opened Spacing

  /** Apply records, for every recorded node, the text the node had before
      the pass, so records stay true originals. */
  lemma ApplyRecordsOriginals(e: Engine, spacing: string -> string)
    requires TextSnapsCurrent(e)
    ensures forall t :: t in PanguApply(e, Some(spacing)).textSnaps && t in e.doc.texts ==>
              PanguApply(e, Some(spacing)).textSnaps[t] == e.doc.texts[t].value
  {
  }

  /** Revert after apply restores every changed node and changes no other
      node, when every existing record is current. */
  lemma RevertAfterApply(e: Engine, spacing: string -> string)
    requires TextSnapsCurrent(e)
    ensures PanguRevert(PanguApply(e, Some(spacing))).doc == e.doc
  {
  }

  /** Why the records must be current: a node whose text changed after it
      was recorded is set back to the old record by apply then revert. */
  lemma StaleRecordWins(e: Engine, spacing: string -> string, t: TextId)
    requires t in e.textSnaps && t in e.doc.texts && e.textSnaps[t] != e.doc.texts[t].value
    ensures PanguRevert(PanguApply(e, Some(spacing))).doc.texts[t].value == e.textSnaps[t]
    ensures PanguRevert(PanguApply(e, Some(spacing))).doc.texts[t].value != e.doc.texts[t].value
  {
  }

  /** Reverting twice is reverting once. */
  lemma RevertIdempotent(e: Engine)
    ensures PanguRevert(PanguRevert(e)) == PanguRevert(e)
  {
  }
}

=== FILE: state.dfy ===
/** The engine's whole state: the document it is attached to, the two
    snapshot stores, the two "applied" flags, the last requested deltas and
    the spacing marker on the document root. */
module EngineState {
  import opened Css
  import opened Dom

  datatype Option<T> = None | Some(value: T)

  /** The first-captured computed values of an element plus its inline
      `style` attribute at that moment. */
  datatype Snapshot = Snapshot(fontSize: CssValue, lineHeight: CssValue, letterSpacing: CssValue,
                               originalInline: StyleAttr)

  /** The requested adjustment: an integer font-size delta and line-height and
      letter-spacing deltas in pixels. */
  datatype Deltas = Deltas(fontSize: int, lineHeight: real, letterSpacing: real)

  datatype Engine = Engine(
    doc: Doc,
    styleSnaps: map<ElemId, Snapshot>,   // element -> original computed values
    textSnaps: map<TextId, string>,      // text node -> original text
    stylesApplied: bool,
    panguApplied: bool,
    state: Deltas,
    marker: Option<string>)              // the root's `data-lite-read-pangu` attribute

  const ZeroDeltas := Deltas(0, 0.0, 0.0)

  /** The engine as first attached to a document: empty stores, both flags
      false and all deltas zero. The marker is whatever the root carries. */
  function Attach(doc: Doc, marker: Option<string>): Engine
  {
    Engine(doc, map[], map[], false, false, ZeroDeltas, marker)
  }
}

=== FILE: style_laws.dfy ===
/** Laws of relative style application and reset: capture-once snapshots make
    repeated application idempotent and free of compounding, and reset undoes
    an application on elements whose original inline style did not already
    set one of the engine's properties. */
module StyleLaws {
  import opened Css
  import opened Dom
  import opened EngineState
  import opened Styles

  /** Restyling never changes what selection looks at. */
  lemma SelectionStable(e: Engine, d: Deltas)
    ensures SelectedIds(Apply(e, d).doc) == SelectedIds(e.doc)
    ensures forall id :: id in e.doc.elements ==>
              (Selected(Apply(e, d).doc, Apply(e, d).doc.elements[id]) <==> Selected(e.doc, e.doc.elements[id]))
  {
  }

  /** Writing the same targets twice is writing them once. */
  lemma RestyleTwice(el: Element, t: Targets)
    ensures Restyle(Restyle(el, t), t) == Restyle(el, t)
  {
  }

  /** A write of all three properties hides every earlier write. */
  lemma RestyleOverwrites(el: Element, t1: Targets, t2: Targets)
    requires t2.fontSize > 0.0 && t2.lineHeight > 0.0
    ensures Restyle(Restyle(el, t1), t2) == Restyle(el, t2)
  {
  }

  /** A second application, with any deltas, reads the snapshot taken before
      the first one: it never computes from the first application's output. */
  lemma SecondApplyReadsOriginal(e: Engine, d1: Deltas, d2: Deltas)
    ensures forall id :: id in e.doc.elements && Selected(e.doc, e.doc.elements[id]) ==>
              Apply(Apply(e, d1), d2).doc.elements[id] ==
                Restyle(Apply(e, d1).doc.elements[id],
                        ComputeTargets(SnapshotFor(e.styleSnaps, id, e.doc.elements[id]), d2))
  {
  }

  /** Applying the same deltas twice gives the same engine as applying them once. */
  lemma ApplyIdempotent(e: Engine, d: Deltas)
    ensures Apply(Apply(e, d), d) == Apply(e, d)
  {
    var a := Apply(e, d);
    var b := Apply(a, d);
    SelectionStable(e, d);
    assert b.styleSnaps == a.styleSnaps;
    forall id | id in e.doc.elements
      ensures b.doc.elements[id] == a.doc.elements[id]
    {
      if Selected(e.doc, e.doc.elements[id]) {
        RestyleTwice(e.doc.elements[id], ComputeTargets(a.styleSnaps[id], d));
      }
    }
    assert b.doc.elements == a.doc.elements;
  }

  /** Deltas `d` write a font size (and so a line height) on every selected element. */
  predicate WritesAll(e: Engine, d: Deltas)
  {
    forall id :: id in e.doc.elements && Selected(e.doc, e.doc.elements[id]) ==>
      ComputeTargets(SnapshotFor(e.styleSnaps, id, e.doc.elements[id]), d).fontSize > 0.0
  }

  /** No compounding: after applying `d1`, applying `d2` gives exactly what
      applying `d2` alone would, whenever `d2` writes every property. */
  lemma ApplyNoCompounding(e: Engine, d1: Deltas, d2: Deltas)
    requires WritesAll(e, d2)
    ensures Apply(Apply(e, d1), d2) == Apply(e, d2)
  {
    var a := Apply(e, d1);
    var b := Apply(a, d2);
    var c := Apply(e, d2);
    SelectionStable(e, d1);
    assert b.styleSnaps == c.styleSnaps;
    forall id | id in e.doc.elements
      ensures b.doc.elements[id] == c.doc.elements[id]
    {
      if Selected(e.doc, e.doc.elements[id]) {
        var t2 := ComputeTargets(c.styleSnaps[id], d2);
        assert c.styleSnaps[id] == SnapshotFor(e.styleSnaps, id, e.doc.elements[id]);
        RestyleOverwrites(e.doc.elements[id], ComputeTargets(a.styleSnaps[id], d1), t2);
      }
    }
    assert b.doc.elements == c.doc.elements;
  }

  /** The inline style sets none of the engine's properties and is not an
      empty `style=""` attribute. */
  predicate Clean(a: StyleAttr)
  {
    a != Style(map[]) && Decls(a).Keys !! EngineProps
  }

  /** Every element the engine may touch has a clean inline style: the
      candidate-tag elements that are selected or already have a snapshot.
      Other elements are never written or unstyled. */
  predicate TouchedClean(e: Engine)
  {
    forall id :: id in e.doc.elements && e.doc.elements[id].tag in CandidateTags
                 && (Selected(e.doc, e.doc.elements[id]) || id in e.styleSnaps) ==>
                   Clean(e.doc.elements[id].style)
  }

  /** Every stored snapshot saved the element's current inline style. */
  predicate SnapshotsMatchDoc(e: Engine)
  {
    forall id :: id in e.styleSnaps && id in e.doc.elements ==>
      e.styleSnaps[id].originalInline == e.doc.elements[id].style
  }

  /** Unstyling an element the engine never wrote leaves it as it is. */
  lemma UnstyleClean(el: Element, s: Snapshot)
    requires Clean(el.style)
    ensures Unstyle(el, s) == el
  {
  }

  /** Unstyling undoes restyling when the snapshot saved the clean original. */
  lemma UnstyleRestyle(el: Element, s: Snapshot, t: Targets)
    requires Clean(el.style) && s.originalInline == el.style
    ensures Unstyle(Restyle(el, t), s) == el
  {
  }

  /** Reset after apply restores every element's inline style exactly, when
      no original inline style of an element the engine may touch set an
      engine property and the stored snapshots saved the current inline
      styles; the snapshots then still match the document. */
  lemma ResetUndoesApply(e: Engine, d: Deltas)
    requires TouchedClean(e)
    requires SnapshotsMatchDoc(e)
    ensures Reset(Apply(e, d)).doc == e.doc
    ensures SnapshotsMatchDoc(Reset(Apply(e, d)))
  {
    var a := Apply(e, d);
    var r := Reset(a);
    SelectionStable(e, d);
    forall id | id in e.doc.elements
      ensures r.doc.elements[id] == e.doc.elements[id]
    {
      var el := e.doc.elements[id];
      if Selected(e.doc, el) {
        assert a.styleSnaps[id].originalInline == el.style;
        UnstyleRestyle(el, a.styleSnaps[id], ComputeTargets(a.styleSnaps[id], d));
      } else if el.tag in CandidateTags && id in a.styleSnaps {
        UnstyleClean(el, a.styleSnaps[id]);
      }
    }
    assert r.doc.elements == e.doc.elements;
  }

  /** Why reset needs a clean original: an author's own inline declaration of
      an engine property is overwritten by apply and then removed by reset. */
  lemma ResetDropsAuthorDeclaration(e: Engine, d: Deltas, id: ElemId, p: string)
    requires id in e.doc.elements && Selected(e.doc, e.doc.elements[id])
    requires p in EngineProps && p in Decls(e.doc.elements[id].style)
    ensures p !in Decls(Reset(Apply(e, d)).doc.elements[id].style)
  {
  }

  /** The worked values: 16px with +2 gives 18px, and line height `normal`
      at 16px with +10 gives 1.2 * 16 + 10 = 29.2px. */
  lemma WorkedExamples()
    ensures ComputeTargets(Snapshot(Px(16.0), Normal, Normal, NoStyle), Deltas(2, 0.0, 0.0)).fontSize == 18.0
    ensures ComputeTargets(Snapshot(Px(16.0), Normal, Normal, NoStyle), Deltas(0, 10.0, 0.0)).lineHeight == 29.2
    ensures ComputeTargets(Snapshot(Px(16.0), Normal, Normal, NoStyle), Deltas(0, 0.0, 0.5)).letterSpacing == 0.5
  {
  }
}

=== FILE: styles.dfy ===
/** Relative style application and reset: the snapshot store for elements,
    the value computation from a snapshot and the deltas, the inline writes,
    and the removal of the engine's inline properties. */
module Styles {
  import opened Css
  import opened Dom
  import opened EngineState

  const FontSizeProp := "font-size"
  const LineHeightProp := "line-height"
  const LetterSpacingProp := "letter-spacing"

  /** The properties the applier writes. */
  const WrittenProps: set<string> := {FontSizeProp, LineHeightProp, LetterSpacingProp}

  /** The properties reset removes: the written ones and the height overrides
      an earlier applier used to set. */
  const EngineProps: set<string> := WrittenProps + {"height", "min-height"}

  /** The values written for one element. */
  datatype Targets = Targets(fontSize: real, lineHeight: real, letterSpacing: real)

  // ---------------------------------------------------------------------
  // Snapshot store

  /** A fresh snapshot of an element: computed values and inline style. */
  function Capture(el: Element): Snapshot
  {
    Snapshot(el.computed.fontSize, el.computed.lineHeight, el.computed.letterSpacing, el.style)
  }

  /** The snapshot the applier uses for `el`: the stored one if any. */
  function SnapshotFor(snaps: map<ElemId, Snapshot>, id: ElemId, el: Element): Snapshot
  {
    if id in snaps then snaps[id] else Capture(el)
  }

  function SelectedIds(doc: Doc): set<ElemId>
  {
    set id | id in doc.elements && Selected(doc, doc.elements[id])
  }

  /** Stores a snapshot for every selected element that has none. */
  function CaptureSelected(doc: Doc, snaps: map<ElemId, Snapshot>): (r: map<ElemId, Snapshot>)
    ensures r.Keys == snaps.Keys + SelectedIds(doc)
    ensures forall id :: id in snaps ==> r[id] == snaps[id]
    ensures forall id :: id in r && id !in snaps ==> id in doc.elements && r[id] == Capture(doc.elements[id])
  {
    map id | id in snaps.Keys + SelectedIds(doc) ::
      if id in snaps then snaps[id] else Capture(doc.elements[id])
  }

  // ---------------------------------------------------------------------
  // Value computation

  /** The values for an element from its snapshot and the deltas. */
  function ComputeTargets(s: Snapshot, d: Deltas): (t: Targets)
    ensures t.fontSize == ParsePx(s.fontSize) + d.fontSize as real
    ensures var asked := LineHeightBase(s.lineHeight, ParsePx(s.fontSize)) + d.lineHeight;
            t.lineHeight == if asked > 0.0 then asked else t.fontSize
    ensures t.letterSpacing == d.letterSpacing + if s.letterSpacing == Normal then 0.0 else ParsePx(s.letterSpacing)
    ensures t.fontSize > 0.0 ==> t.lineHeight > 0.0
  {
    var fs := ParsePx(s.fontSize);
    var newFs := fs + d.fontSize as real;
    var lh := LineHeightBase(s.lineHeight, fs) + d.lineHeight;
    var newLh := if lh <= 0.0 then newFs else lh;
    var ls := if s.letterSpacing != Normal then ParsePx(s.letterSpacing) else 0.0;
    Targets(newFs, newLh, ls + d.letterSpacing)
  }

  // ---------------------------------------------------------------------
  // Inline writes

  /** `p` holds the engine's pixel value `x` with `!important`. */
  predicate Written(a: StyleAttr, p: string, x: real)
  {
    p in Decls(a) && Decls(a)[p] == Decl(Px(x), true)
  }

  /** `a` and `b` agree on property `p`. */
  predicate Keeps(a: StyleAttr, b: StyleAttr, p: string)
  {
    (p in Decls(a) <==> p in Decls(b)) && (p in Decls(a) ==> Decls(a)[p] == Decls(b)[p])
  }

  /** Writes the targets into an element's inline style: font size and line
      height only when positive, letter spacing always. */
  function Restyle(el: Element, t: Targets): (r: Element)
    ensures r.tag == el.tag && r.computed == el.computed && r.childText == el.childText
    ensures r.style.Style?
    ensures t.fontSize > 0.0 ==> Written(r.style, FontSizeProp, t.fontSize)
    ensures t.fontSize <= 0.0 ==> Keeps(r.style, el.style, FontSizeProp)
    ensures t.lineHeight > 0.0 ==> Written(r.style, LineHeightProp, t.lineHeight)
    ensures t.lineHeight <= 0.0 ==> Keeps(r.style, el.style, LineHeightProp)
    ensures Written(r.style, LetterSpacingProp, t.letterSpacing)
    ensures forall p :: p !in WrittenProps ==> Keeps(r.style, el.style, p)
  {
    var a0 := el.style;
    var a1 := if t.fontSize > 0.0 then SetProperty(a0, FontSizeProp, Decl(Px(t.fontSize), true)) else a0;
    var a2 := if t.lineHeight > 0.0 then SetProperty(a1, LineHeightProp, Decl(Px(t.lineHeight), true)) else a1;
    var a3 := SetProperty(a2, LetterSpacingProp, Decl(Px(t.letterSpacing), true));
    el.(style := a3)
  }

  /** `r` is the outcome of the relative style pass with deltas `d` over the
      elements `els` with stored snapshots `snaps`: stored snapshots are
      kept, new ones are fresh captures of selected elements only, every
      element selected in `r` is
      written from its snapshot and every other element is as it was. */
  predicate StyledFrom(els: map<ElemId, Element>, snaps: map<ElemId, Snapshot>, r: Engine, d: Deltas)
  {
    && r.doc.elements.Keys == els.Keys
    && (forall id :: id in snaps ==> id in r.styleSnaps && r.styleSnaps[id] == snaps[id])
    && (forall id :: id in r.styleSnaps && id !in snaps ==> id in els && r.styleSnaps[id] == Capture(els[id]))
    && (forall id :: id in r.styleSnaps && id !in snaps ==> Selected(r.doc, r.doc.elements[id]))
    && (forall id :: id in els ==>
          if Selected(r.doc, r.doc.elements[id])
          then id in r.styleSnaps && r.doc.elements[id] == Restyle(els[id], ComputeTargets(r.styleSnaps[id], d))
          else r.doc.elements[id] == els[id])
  }

  /** The relative style pass over the whole document. */
  function Apply(e: Engine, d: Deltas): (r: Engine)
    ensures r.doc.texts == e.doc.texts && r.doc.elements.Keys == e.doc.elements.Keys
    ensures r.textSnaps == e.textSnaps && r.panguApplied == e.panguApplied
    ensures r.state == e.state && r.marker == e.marker
    ensures r.stylesApplied
    // capture once: stored snapshots are kept, selected elements gain one
    ensures r.styleSnaps.Keys == e.styleSnaps.Keys + SelectedIds(e.doc)
    ensures forall id :: id in e.styleSnaps ==> r.styleSnaps[id] == e.styleSnaps[id]
    ensures forall id :: id in r.styleSnaps && id !in e.styleSnaps ==>
              id in e.doc.elements && r.styleSnaps[id] == Capture(e.doc.elements[id])
    // unselected elements are untouched; selected ones are written from their snapshot
    ensures forall id :: id in e.doc.elements && !Selected(e.doc, e.doc.elements[id]) ==>
              r.doc.elements[id] == e.doc.elements[id]
    ensures forall id :: id in e.doc.elements && Selected(e.doc, e.doc.elements[id]) ==>
              r.doc.elements[id] == Restyle(e.doc.elements[id], ComputeTargets(r.styleSnaps[id], d))
    ensures StyledFrom(e.doc.elements, e.styleSnaps, r, d)
  {
    var snaps := CaptureSelected(e.doc, e.styleSnaps);
    var els := map id | id in e.doc.elements ::
      if Selected(e.doc, e.doc.elements[id])
      then Restyle(e.doc.elements[id], ComputeTargets(snaps[id], d))
      else e.doc.elements[id];
    var doc := e.doc.(elements := els);
    ApplyKeepsSelection(e.doc, doc);
    e.(doc := doc, styleSnaps := snaps, stylesApplied := true)
  }

  /** Selection looks only at an element's tag, its child text nodes and the
      text, so a pass that keeps those keeps the selection. */
  lemma ApplyKeepsSelection(before: Doc, after: Doc)
    requires after.texts == before.texts && after.elements.Keys == before.elements.Keys
    requires forall id :: id in before.elements ==>
               after.elements[id].tag == before.elements[id].tag &&
               after.elements[id].childText == before.elements[id].childText
    ensures forall id :: id in before.elements ==>
              (Selected(after, after.elements[id]) <==> Selected(before, before.elements[id]))
  {
  }

  // ---------------------------------------------------------------------
  // Reset

  /** Removes the engine's properties from one element and drops a `style`
      attribute left empty when the element originally had none. */
  function Unstyle(el: Element, s: Snapshot): (r: Element)
    ensures r.tag == el.tag && r.computed == el.computed && r.childText == el.childText
    ensures Decls(r.style) == Decls(el.style) - EngineProps
    ensures r.style == NoStyle <==>
              (el.style == NoStyle || (IsEmptyOrAbsent(s.originalInline) && Decls(el.style).Keys <= EngineProps))
  {
    var a := RemoveProperty(RemoveProperty(RemoveProperty(RemoveProperty(RemoveProperty(
               el.style, FontSizeProp), LineHeightProp), LetterSpacingProp), "height"), "min-height");
    assert Decls(a) == Decls(el.style) - EngineProps;
    assert a.Style? <==> el.style.Style?;
    RemovedAllIffEmpty(Decls(el.style), EngineProps);
    el.(style := if IsEmptyOrAbsent(s.originalInline) && a == Style(map[]) then NoStyle else a)
  }

  /** Removing a set of keys leaves nothing exactly when the keys cover the map. */
  lemma RemovedAllIffEmpty<K, V>(m: map<K, V>, ks: set<K>)
    ensures (m - ks == map[]) <==> m.Keys <= ks
  {
    if m.Keys <= ks {
      assert (m - ks).Keys == {};
    } else {
      var k :| k in m.Keys && k !in ks;
      assert k in (m - ks);
    }
  }

  /** Reset: a no-op unless styles are applied; otherwise every candidate
      element with a snapshot is unstyled and the flag is cleared. */
  function Reset(e: Engine): (r: Engine)
    ensures !e.stylesApplied ==> r == e
    ensures !r.stylesApplied
    ensures r.styleSnaps == e.styleSnaps && r.textSnaps == e.textSnaps
    ensures r.doc.texts == e.doc.texts && r.doc.elements.Keys == e.doc.elements.Keys
    ensures r.panguApplied == e.panguApplied && r.state == e.state && r.marker == e.marker
    ensures e.stylesApplied ==> forall id :: id in e.doc.elements ==>
              r.doc.elements[id] ==
                if e.doc.elements[id].tag in CandidateTags && id in e.styleSnaps
                then Unstyle(e.doc.elements[id], e.styleSnaps[id])
                else e.doc.elements[id]
  {
    if !e.stylesApplied then e
    else
      var els := map id | id in e.doc.elements ::
        if e.doc.elements[id].tag in CandidateTags && id in e.styleSnaps
        then Unstyle(e.doc.elements[id], e.styleSnaps[id])
        else e.doc.elements[id];
      e.(doc := e.doc.(elements := els), stylesApplied := false)
  }
}

=== FILE: walks.dfy ===
/** The passes as the engine runs them: one node at a time, here in any
    order. Each walk computes exactly the whole-document function it
    implements. The order does not matter here because computed values are
    fixed inputs; in the browser a descendant snapshotted after its
    ancestor's write sees the adjusted values. */
module Walks {
  import opened Dom
  import opened EngineState
  import opened Styles
  import opened Spacing

  /** Maps that agree with the relative style pass on every key are its maps. */
  lemma ApplyFromParts(e: Engine, d: Deltas, snaps: map<ElemId, Snapshot>, els: map<ElemId, Element>)
    requires els.Keys == e.doc.elements.Keys
    requires forall id :: id in snaps <==> id in e.styleSnaps || id in SelectedIds(e.doc)
    requires forall id :: id in e.styleSnaps ==> snaps[id] == e.styleSnaps[id]
    requires forall id :: id in snaps && id !in e.styleSnaps ==>
               id in e.doc.elements && snaps[id] == Capture(e.doc.elements[id])
    requires forall id :: id in e.doc.elements ==>
               els[id] == if id in SelectedIds(e.doc)
                          then Restyle(e.doc.elements[id], ComputeTargets(snaps[id], d))
                          else e.doc.elements[id]
    ensures snaps == Apply(e, d).styleSnaps && els == Apply(e, d).doc.elements
  {
  }

  /** The relative style pass element by element, in any order: skip
      unselected elements, snapshot if there is no snapshot yet, then write
      the three properties. */
  method ApplyEach(e: Engine, d: Deltas) returns (r: Engine)
    ensures r == Apply(e, d)
  {
    ghost var sel := SelectedIds(e.doc);
    var snaps := e.styleSnaps;
    var els := e.doc.elements;
    var todo := e.doc.elements.Keys;
    while todo != {}
      invariant todo <= e.doc.elements.Keys
      invariant els.Keys == e.doc.elements.Keys
      invariant forall id :: id in snaps <==> id in e.styleSnaps || (id in sel && id !in todo)
      invariant forall id :: id in e.styleSnaps ==> snaps[id] == e.styleSnaps[id]
      invariant forall id :: id in snaps && id !in e.styleSnaps ==>
                  id in e.doc.elements && snaps[id] == Capture(e.doc.elements[id])
      invariant forall id :: id in e.doc.elements ==>
                  els[id] == if id in sel && id !in todo
                             then Restyle(e.doc.elements[id], ComputeTargets(snaps[id], d))
                             else e.doc.elements[id]
      decreases todo
    {
      var id :| id in todo;
      var el := els[id];
      if Selected(e.doc, el) {
        if id !in snaps {
          snaps := snaps[id := Capture(el)];
        }
        els := els[id := Restyle(el, ComputeTargets(snaps[id], d))];
      }
      todo := todo - {id};
    }
    ApplyFromParts(e, d, snaps, els);
    r := e.(doc := e.doc.(elements := els), styleSnaps := snaps, stylesApplied := true);
  }

  /** Maps that agree with the spacing pass on every key are its maps. */
  lemma PanguApplyFromParts(e: Engine, spacing: string -> string, snaps: map<TextId, string>,
                            texts: map<TextId, TextNode>)
    requires texts.Keys == e.doc.texts.Keys
    requires forall t :: t in snaps <==> t in e.textSnaps || t in ChangedIds(e.doc, spacing)
    requires forall t :: t in e.textSnaps ==> snaps[t] == e.textSnaps[t]
    requires forall t :: t in snaps && t !in e.textSnaps ==>
               t in e.doc.texts && snaps[t] == e.doc.texts[t].value
    requires forall t :: t in e.doc.texts ==>
               texts[t] == if t in ChangedIds(e.doc, spacing)
                           then e.doc.texts[t].(value := spacing(e.doc.texts[t].value))
                           else e.doc.texts[t]
    ensures snaps == PanguApply(e, Some(spacing)).textSnaps && texts == PanguApply(e, Some(spacing)).doc.texts
  {
  }

  /** The spacing pass in two phases, in any order: collect the eligible
      text nodes, then run the segmenter on each, recording the original of
      a changed node unless a record exists. */
  method PanguApplyEach(e: Engine, spacing: string -> string) returns (r: Engine)
    ensures r == PanguApply(e, Some(spacing))
  {
    var nodes: set<TextId> := {};
    var walk := e.doc.texts.Keys;
    while walk != {}
      invariant walk <= e.doc.texts.Keys
      invariant forall t :: t in nodes <==> t in e.doc.texts && t !in walk && Eligible(e.doc.texts[t])
      decreases walk
    {
      var t :| t in walk;
      if Eligible(e.doc.texts[t]) {
        nodes := nodes + {t};
      }
      walk := walk - {t};
    }

    ghost var changed := ChangedIds(e.doc, spacing);
    var snaps := e.textSnaps;
    var texts := e.doc.texts;
    var todo := nodes;
    while todo != {}
      invariant todo <= nodes
      invariant texts.Keys == e.doc.texts.Keys
      invariant forall t :: t in snaps <==> t in e.textSnaps || (t in changed && t !in todo)
      invariant forall t :: t in e.textSnaps ==> snaps[t] == e.textSnaps[t]
      invariant forall t :: t in snaps && t !in e.textSnaps ==>
                  t in e.doc.texts && snaps[t] == e.doc.texts[t].value
      invariant forall t :: t in e.doc.texts ==>
                  texts[t] == if t in changed && t !in todo
                              then e.doc.texts[t].(value := spacing(e.doc.texts[t].value))
                              else e.doc.texts[t]
      decreases todo
    {
      var t :| t in todo;
      var original := texts[t].value;
      var spaced := spacing(original);
      if original != spaced {
        if t !in snaps {
          snaps := snaps[t := original];
        }
        texts := texts[t := texts[t].(value := spaced)];
      }
      todo := todo - {t};
    }
    PanguApplyFromParts(e, spacing, snaps, texts);
    r := e.(doc := e.doc.(texts := texts), textSnaps := snaps, panguApplied := true);
  }

  /** Reset element by element, in any order. */
  method ResetEach(e: Engine) returns (r: Engine)
    ensures r == Reset(e)
  {
    if !e.stylesApplied {
      return e;
    }
    var els := e.doc.elements;
    var todo := e.doc.elements.Keys;
    while todo != {}
      invariant todo <= e.doc.elements.Keys
      invariant els.Keys == e.doc.elements.Keys
      invariant forall id :: id in e.doc.elements ==>
                  els[id] == if id !in todo && e.doc.elements[id].tag in CandidateTags && id in e.styleSnaps
                             then Unstyle(e.doc.elements[id], e.styleSnaps[id])
                             else e.doc.elements[id]
      decreases todo
    {
      var id :| id in todo;
      var el := els[id];
      if el.tag in CandidateTags && id in e.styleSnaps {
        els := els[id := Unstyle(el, e.styleSnaps[id])];
      }
      todo := todo - {id};
    }
    assert els == Reset(e).doc.elements;
    r := e.(doc := e.doc.(elements := els), stylesApplied := false);
  }

  /** Revert node by node, in any order. */
  method PanguRevertEach(e: Engine) returns (r: Engine)
    ensures r == PanguRevert(e)
  {
    var texts := e.doc.texts;
    var todo := e.doc.texts.Keys;
    while todo != {}
      invariant todo <= e.doc.texts.Keys
      invariant texts.Keys == e.doc.texts.Keys
      invariant forall t :: t in e.doc.texts ==>
                  texts[t] == if t !in todo && t in e.textSnaps
                              then e.doc.texts[t].(value := e.textSnaps[t])
                              else e.doc.texts[t]
      decreases todo
    {
      var t :| t in todo;
      if t in e.textSnaps && texts[t].value != e.textSnaps[t] {
        texts := texts[t := texts[t].(value := e.textSnaps[t])];
      }
      todo := todo - {t};
    }
    assert texts == PanguRevert(e).doc.texts;
    r := e.(doc := e.doc.(texts := texts), panguApplied := false);
  }
}
